=== FILE: README.md ===
# Browser-cache persistence of a SQLite database: a Dafny model

The application runs an embedded SQLite database inside a browser sandbox.
The database file lives in an in-memory working filesystem that is wiped on
every page reload, while the browser's Cache Storage survives reloads. Two
pieces keep them in step, and this project models both as pure state
transitions over maps:

- the **storage service** (`syncDatabaseWithBrowserCacheAsync`): its first
  call in a page restores a database file from the cache, every later call
  pushes a file into the cache and deletes it; `generateDownloadLinkAsync`
  looks up a cached blob;
- the **context factory** (`BlazorWasmDbContextFactory`): it resolves the
  database filename from the connection string once per context type, starts a
  restore of `<file>_backup` at construction and swaps it onto the live file
  when found, makes the first `CreateDbContextAsync` wait for that restore and
  create the schema, and after every save that wrote rows copies the live file
  to `<file>_backup-<suffix>` and pushes it.

Modules, one per file:

| file | module | models |
|---|---|---|
| common.dfy | `Common` | `Option`, `Result`, bytes, the working filesystem as `map<string, Bytes>` |
| strings.dfy | `Strings` | ordinal `indexOf`/`Contains`, `Split` and its inverse `Join`, ASCII `ToLowerInvariant` |
| filename_registry.dfy | `FilenameRegistry` | connection-string parsing and the static `FileNames` registry |
| browser_cache_storage.dfy | `BrowserCacheStorage` | the cache key, the restore/push entry point, the download lookup |
| database_swap.dfy | `DatabaseSwap` | `DoSwap` as a whole-file copy |
| db_context_factory.dfy | `DbContextFactory` | restore task, startup gating, `_init`, the post-write backup, `_lastStatus` |
| lifecycle.dfy | `Lifecycle` | whole runs: write, push, reload, restore |

Modelling choices:

- Every asynchronous step is one atomic transition; the restore started by the
  constructor runs to completion inside `New`, and its result is kept as the
  settled startup task.
- Status codes are the integers of the source: -2 not yet run, -1 not found,
  0 restored, 1 pushed.
- A SQLite file name `n` is the working-filesystem path `/n` (the storage
  service writes and reads `/${file}`).
- The GUID fragment of a backup name is a parameter `suffix`.
- The page's persistent cache maps keys to bytes; only responses the service
  itself stored (status 200) are ever in it, so a cached entry is always "ok".
- `World.syncCalls` records the names passed to `SyncDatabaseAsync`, so
  contracts can say which name was synced.
- The factory's context type is a name (`TypeId`); the runtime type of the
  created context is taken to be `TContext` itself.
- A missing swap source: opening a SQLite file creates it, so `Swap` gives both
  files the content of a new empty database (`EmptyDatabase`). This is why,
  once the startup restore has completed, every post-write push returns 1
  (`SavedChangesPushes`).
- A startup task that faulted keeps its exception: `_startupTask` is only
  cleared after a successful await, so every later `CreateDbContextAsync` and
  save handler rethrows it.
- The model follows the code: a save of zero rows makes no sync call at all,
  and the swap cannot fail (see "Left out").
- The C# wrapper invokes the JavaScript function under the name
  `syncDatabaseWithStorageAsync` (src/TodoList.Infra.Data/BrowserCacheDatabaseStorageService.cs:20), but the module exports
  `syncDatabaseWithBrowserCacheAsync`. As written, that interop call would
  fail. The model binds `SyncDatabaseAsync` to the exported function, which
  is evidently what was meant.

## Model

| member | source | states |
|---|---|---|
| Strings.IndexOf | src/TodoList.Infra.Data/wwwroot/browserCacheDatabaseStorageService.js:8 | the result is the position of the first occurrence of the pattern, or -1 exactly when it occurs nowhere |
| Strings.Split | src/TodoList.Infra.Data/BlazorWasmDbContextFactory.cs:72-73 | the pieces hold no separator; there is one piece exactly when the string holds no separator |
| Strings.JoinSplit | src/TodoList.Infra.Data/BlazorWasmDbContextFactory.cs:72-73 | joining the pieces of a split with the separator gives the original string |
| Strings.SplitJoin | src/TodoList.Infra.Data/BlazorWasmDbContextFactory.cs:72-73 | splitting joined separator-free pieces gives the pieces back |
| FilenameRegistry.ScanFrom | src/TodoList.Infra.Data/BlazorWasmDbContextFactory.cs:71-84 | the lazy LINQ scan yields the value of the first segment whose key names the file, fails on a segment without '=' reached before any match, and yields nothing when every segment has a value and none names the file |
| FilenameRegistry.ResolveFilename | src/TodoList.Infra.Data/BlazorWasmDbContextFactory.cs:62-89 | a null connection string resolves to `filenotfound.db` |
| FilenameRegistry.ResolveFilenameSegments | src/TodoList.Infra.Data/BlazorWasmDbContextFactory.cs:71-89 | the filename is the value (text between the first and second '=') of the first `;`-segment whose lower-cased key contains `data source`, `datasource` or `filename`; a segment without '=' before it throws |
| FilenameRegistry.ResolveFilenameFallback | src/TodoList.Infra.Data/BlazorWasmDbContextFactory.cs:86-89 | a connection string whose segments all have values and none names the file resolves to `filenotfound.db` |
| FilenameRegistry.ResolveSingleSegment | src/TodoList.Infra.Data/BlazorWasmDbContextFactory.cs:71-84 | a one-segment `key=value` string with a file key resolves to its value |
| FilenameRegistry.ResolveTodoListConnectionString | src/TodoList.Presentation/Program.cs:20 | the application's `Data Source=todolist.sqlite3` resolves to `todolist.sqlite3` |
| FilenameRegistry.GetFilename | src/TodoList.Infra.Data/BlazorWasmDbContextFactory.cs:59-93 | a registered type gets its cached name without parsing; otherwise the parsed name is added; existing entries are never overwritten; a parse error leaves the registry unchanged |
| FilenameRegistry.GetFilenameStable | src/TodoList.Infra.Data/BlazorWasmDbContextFactory.cs:64-67 | after a successful resolution, a second lookup with any other connection string returns the same name and registry |
| FilenameRegistry.FilenameForTypeAfterGetFilename | src/TodoList.Infra.Data/BlazorWasmDbContextFactory.cs:53-93 | `GetFilenameForType` returns null before a type's first resolution and the resolved name after it; a failed resolution registers nothing |
| FilenameRegistry.FilenameForType | src/TodoList.Infra.Data/BlazorWasmDbContextFactory.cs:53-54 | the cached name of a type, or null exactly when it is not registered |
| BrowserCacheStorage.CacheKey | src/TodoList.Infra.Data/wwwroot/browserCacheDatabaseStorageService.js:8 | the key is `/cache/database/` plus the logical name when the name holds `_backup`, and the bare prefix for every name without one |
| BrowserCacheStorage.CacheKeyShape | src/TodoList.Infra.Data/wwwroot/browserCacheDatabaseStorageService.js:8 | the key is `/cache/database/` plus the text before the first `_backup`, or just the prefix when the name has no `_backup` (`substring(0, -1)` is empty) |
| BrowserCacheStorage.LogicalName | src/TodoList.Infra.Data/wwwroot/browserCacheDatabaseStorageService.js:8 | the logical name is the prefix of the name before its first `_backup`: no `_backup` starts inside it, one starts right after it unless it is the whole name |
| BrowserCacheStorage.LogicalNameWithoutMarker | src/TodoList.Infra.Data/wwwroot/browserCacheDatabaseStorageService.js:8 | a name without `_` is its own logical name |
| BrowserCacheStorage.MarkerAfterName | src/TodoList.Infra.Data/wwwroot/browserCacheDatabaseStorageService.js:8 | in `name + "_backup" + rest` the first `_backup` starts at the end of the logical name of `name` |
| BrowserCacheStorage.BackupNamesShareKey | src/TodoList.Infra.Data/wwwroot/browserCacheDatabaseStorageService.js:8 | `x_backup` and every `x_backup...` have the same cache key, `/cache/database/` plus the logical name of `x` |
| BrowserCacheStorage.Sync | src/TodoList.Infra.Data/wwwroot/browserCacheDatabaseStorageService.js:1-60 | the first call restores (0) exactly when the key is cached, copying its bytes to `/file`; later calls push (1) exactly when `/file` exists, caching its bytes and deleting it; otherwise -1 with filesystem and cache unchanged; `init` is true afterwards; no other path or key changes |
| BrowserCacheStorage.OnlyFirstCallRestores | src/TodoList.Infra.Data/wwwroot/browserCacheDatabaseStorageService.js:10-12 | every call after the first returns 1 or -1, never 0 |
| BrowserCacheStorage.PushThenRestore | src/TodoList.Infra.Data/wwwroot/browserCacheDatabaseStorageService.js:14-57 | pushing `n_backup-s` with bytes B and restoring `n_backup` in a reloaded page gives status 0 and `/n_backup` = B |
| BrowserCacheStorage.DownloadLink | src/TodoList.Infra.Data/wwwroot/browserCacheDatabaseStorageService.js:62-71 | the lookup reads the store only; it returns the empty result exactly when the derived key has no entry, else the cached bytes; it throws before the page's first sync |
| BrowserCacheStorage.LinkAfterPush | src/TodoList.Infra.Data/wwwroot/browserCacheDatabaseStorageService.js:62-71 | after pushing `n_backup-s`, the link for `n_backup` hands out the pushed bytes |
| DatabaseSwap.Swap | src/TodoList.Infra.Data/DatabaseSwapService.cs:8-20 | the destination gets the source's content (an empty database when the source did not exist); only the source and destination paths can change |
| DatabaseSwap.SwapIdempotent | src/TodoList.Infra.Data/DatabaseSwapService.cs:8-20 | repeating a swap changes nothing more |
| DbContextFactory.Filename | src/TodoList.Infra.Data/BlazorWasmDbContextFactory.cs:29 | the registered filename of the context type, or an error exactly when none is registered |
| DbContextFactory.BackupFileKey | src/TodoList.Infra.Data/BlazorWasmDbContextFactory.cs:30 | the restored name `<filename>_backup` always holds the marker, so it is cached under `/cache/database/` plus the logical name of the file |
| DbContextFactory.BackupName | src/TodoList.Infra.Data/BlazorWasmDbContextFactory.cs:112 | the push name is `<filename>_backup` followed by `-<suffix>`, and it derives the same cache key as the restored name |
| DbContextFactory.BackupNamesDistinct | src/TodoList.Infra.Data/BlazorWasmDbContextFactory.cs:111-112 | backup names with distinct suffixes differ, and differ from the live and the restored file names |
| DbContextFactory.RestoreTask | src/TodoList.Infra.Data/BlazorWasmDbContextFactory.cs:117-127 | the restore registers the cached or the resolved filename and syncs exactly `<filename>_backup`; on the page's first sync the status is 0 when the key is cached, and then the live file receives the cached bytes, and -1 when it is not; on a later sync it is 1 when `/<filename>_backup` exists, and then its bytes go under the key and the file is removed, and -1 when it does not; on any status but 0 the live file is unchanged, and on -1 the whole filesystem is; only the live and backup paths and the backup's cache key can change; a resolution error faults the task with nothing changed |
| DbContextFactory.New | src/TodoList.Infra.Data/BlazorWasmDbContextFactory.cs:18-27 | construction runs the restore as the startup task, leaves `_init` false, and `_lastStatus` holds the restore status (-2 if it faulted) |
| DbContextFactory.CheckForStartupTask | src/TodoList.Infra.Data/BlazorWasmDbContextFactory.cs:95-103 | a pending task is consumed: `_startupTask` becomes null and `_lastStatus` becomes its result; with no task nothing changes; a faulted task rethrows |
| DbContextFactory.CheckForStartupTaskOnce | src/TodoList.Infra.Data/BlazorWasmDbContextFactory.cs:97-102 | checking again after a successful check changes nothing |
| DbContextFactory.CreateDbContext | src/TodoList.Infra.Data/BlazorWasmDbContextFactory.cs:32-51 | opening waits for the startup task, then creates the schema exactly when `_init` was false, and sets `_init` |
| DbContextFactory.SchemaCreatedOnce | src/TodoList.Infra.Data/BlazorWasmDbContextFactory.cs:40-45 | after one successful open, the next open does not create the schema |
| DbContextFactory.SavedChanges | src/TodoList.Infra.Data/BlazorWasmDbContextFactory.cs:105-115 | a faulted startup task rethrows its own error; with no rows saved, filesystem, cache and sync calls are unchanged; otherwise an unregistered filename throws, and a registered one has exactly `<filename>_backup-<suffix>` synced, the live file keeps its bytes (or holds an empty database if it was missing), and no other path or cache key changes; `_lastStatus` is the sync's status: before the storage service's first call 0 when the backup's key is cached and -1 when it is not, after it 1, with the live file's bytes under the key and the backup file gone; the context type is kept |
| DbContextFactory.NewIsGood | src/TodoList.Infra.Data/BlazorWasmDbContextFactory.cs:15-27 | a new factory holds a status code, and, unless its restore faulted, a registered filename and a started storage service |
| DbContextFactory.CreateDbContextKeepsGood | src/TodoList.Infra.Data/BlazorWasmDbContextFactory.cs:32-45 | opening a context keeps that invariant |
| DbContextFactory.SavedChangesKeepsGood | src/TodoList.Infra.Data/BlazorWasmDbContextFactory.cs:105-115 | every save event keeps that invariant |
| DbContextFactory.SavedChangesPushes | src/TodoList.Infra.Data/BlazorWasmDbContextFactory.cs:109-114 | once the startup restore completed, a save of rows always ends with `_lastStatus` = 1 |
| Lifecycle.PushedUnderRestoreKey | src/TodoList.Infra.Data/BlazorWasmDbContextFactory.cs:112-114 | a save of rows leaves the live file's bytes under the key the restore of `<filename>_backup` reads |
| Lifecycle.RestoreFromCache | src/TodoList.Infra.Data/BlazorWasmDbContextFactory.cs:117-124 | a page before its first sync, with the key cached, restores the cached bytes onto the live file with status 0 |
| Lifecycle.WriteThenReloadRestores | src/TodoList.Infra.Data/BlazorWasmDbContextFactory.cs:105-127 | after a save of rows, a reloaded page with a connection string naming the same file restores exactly the live file's bytes at the time of the save |
| Lifecycle.EmptyCacheStart | src/TodoList.Infra.Data/BlazorWasmDbContextFactory.cs:117-126 | from an empty cache, the restore misses (-1), the filesystem stays empty and the filename is registered |
| Lifecycle.PushIntoEmptyCache | src/TodoList.Infra.Data/wwwroot/browserCacheDatabaseStorageService.js:53 | a push into an empty cache leaves exactly one key, the logical filename's |
| Lifecycle.EmptyCacheRun | src/TodoList.Infra.Data/BlazorWasmDbContextFactory.cs:32-127 | empty cache: restore -1, first open creates the schema, a write then pushes (1) and the cache holds only the written bytes under the logical filename |
| Lifecycle.TodoListKey | src/TodoList.Infra.Data/wwwroot/browserCacheDatabaseStorageService.js:8 | `todolist.sqlite3` is cached under `/cache/database/todolist.sqlite3`, by restore and push names alike |
| Lifecycle.SeededCacheScenario | src/TodoList.Infra.Data/BlazorWasmDbContextFactory.cs:117-124 | a cache seeded for `todolist.sqlite3` gives status 0 and a live file holding the seeded bytes when the first context is opened |

## Left out

- SQLite's engine, EF Core's `DbContext`, `EnsureCreatedAsync` and `CloseConnectionAsync`: opaque library calls. `CreateDbContext` reports whether schema creation ran but does not change the filesystem. Writes the engine makes to the live file are inputs of the lifecycle lemmas.
- `DoSwap`'s consistent-snapshot guarantee and an engine-open failure on a corrupt file: the swap is a whole-value copy that cannot fail.
- The JavaScript interop wrapper, its lazy module import and `DisposeAsync`: foreign-call plumbing.
- The fire-and-forget `async void` save handler and overlapping pushes: each step is atomic and sequential. Which push wins when two overlap is not defined by the source.
- The 10 ms settle delay, `console.log` and `URL.createObjectURL`: timing and host effects. The link is modelled as the cached bytes (`Option<Bytes>`).
- GUID generation: the suffix is a parameter. Its freshness is assumed; `BackupNamesDistinct` shows that distinct suffixes give distinct names.
- FilenameRegistry.ResolveFilename: `ToLowerInvariant` maps only ASCII `A`–`Z`; the full Unicode case mapping of .NET is not modelled.
- DbContextFactory.CreateDbContext: the handler registration on `SavedChanges` is not modelled. Each save event is passed to `SavedChanges` explicitly.
- DbContextFactory.CheckForStartupTask: the model takes each call as atomic, so a pending task is consumed once and later callers skip it. Two `CreateDbContextAsync` calls suspended together at `await _startupTask` (src/TodoList.Infra.Data/BlazorWasmDbContextFactory.cs:99) behave differently in the source: the first continuation sets `_startupTask` to null (line 101 of that file), and the second then calls `Dispose()` on null (line 100) and throws a `NullReferenceException`. That interleaving is not modelled.
- BrowserCacheStorage.Sync: Cache Storage and filesystem failures are not modelled; every sync call completes. In the source, `caches.open` (src/TodoList.Infra.Data/wwwroot/browserCacheDatabaseStorageService.js:4), `cache.match` (line 14), `cache.put` (line 53), `FS.writeFile` (line 22, e.g. under a missing directory) and `FS.readFile` (line 37) can reject. In the restore (src/TodoList.Infra.Data/BlazorWasmDbContextFactory.cs:120) such a rejection faults the startup task, leaves `_lastStatus` at -2 and makes every later open rethrow; after a save (line 114 of that file) it escapes the `async void` handler. `DbContextFactory.RestoreTask`'s "faults exactly on a filename parse error" and `DbContextFactory.SavedChangesPushes`'s "a save of rows always ends with 1" hold only under this assumption.
- BrowserCacheStorage.Sync: the browser cache is keyed here by the raw key string. Cache Storage actually matches request URLs: fragments are ignored, the path is percent-encoded and dot segments are resolved. Two distinct keys such as `/cache/database/a#1.db` and `/cache/database/a#2.db` therefore hit one entry, and Sync's "every other key is unchanged" does not hold for such names. URL normalisation is not modelled.
- DI wiring, `Program.cs` beyond its connection string, the `Todo` entity, `TodoRepository`, `TodoListDbContext` and the interfaces: wiring and trivial code.
- A context whose runtime type differs from `TContext`: such a context would key the registry differently from the `Filename` lookup; the model has one type per factory.

=== FILE: browser_cache_storage.dfy ===
/** The browser-side storage service: one entry point that restores a
    database file from the persistent browser cache on its first call and
    pushes a file into the cache on every later call, plus a lookup that
    hands out the cached bytes of a database. */
module BrowserCacheStorage {
  import opened Common
  import opened Strings

  /** Status codes returned by a sync call. */
  const NotFound := -1
  const Restored := 0
  const Pushed := 1

  /** The marker that separates a database's logical name from a backup suffix. */
  const BackupMarker := "_backup"

  /** The prefix of every cache key. */
  const CachePrefix := "/cache/database/"

  /** The working-filesystem path of a file name. */
  function PathOf(file: string): (p: string)
    ensures |p| == |file| + 1 && p[1..] == file
  {
    "/" + file
  }

  /** JavaScript's clamping of a `substring` bound into `0..len`. */
  function ClampIndex(x: int, len: nat): (r: nat)
    ensures r <= len
    ensures 0 <= x <= len ==> r == x
  {
    if x < 0 then 0 else if x > len then len else x
  }

  /** `String.prototype.substring`: bounds are clamped and, when reversed, swapped. */
  function JsSubstring(s: string, start: int, end: int): string
  {
    var a := ClampIndex(start, |s|);
    var b := ClampIndex(end, |s|);
    if a <= b then s[a..b] else s[b..a]
  }

  /** The cache key of a file: the prefix plus `file.substring(0, file.indexOf('_backup'))`. */
  function CacheKey(file: string): (r: string)
    ensures CachePrefix <= r
    ensures Contains(file, BackupMarker) ==> r == CachePrefix + LogicalName(file)
    ensures !Contains(file, BackupMarker) ==> r == CachePrefix
  {
    CachePrefix + JsSubstring(file, 0, IndexOf(file, BackupMarker))
  }

  /** The part of a name before its first backup marker; the empty string
      when the name has none, since `substring(0, -1)` is empty. */
  lemma CacheKeyShape(file: string)
    ensures Contains(file, BackupMarker) ==>
              CacheKey(file) == CachePrefix + file[..IndexOf(file, BackupMarker)]
    ensures !Contains(file, BackupMarker) ==> CacheKey(file) == CachePrefix
  {
  }

  /** The logical name under which a database is cached: its name up to the
      first backup marker, or the whole name when it has none. */
  function LogicalName(name: string): (r: string)
    ensures |r| <= |name| && r == name[..|r|]
    ensures !OccursAt(name, BackupMarker, |r|) ==> r == name
    ensures r != name ==> OccursAt(name, BackupMarker, |r|)
    ensures forall j :: 0 <= j < |r| ==> !OccursAt(name, BackupMarker, j)
  {
    var i := IndexOf(name, BackupMarker);
    if i >= 0 then name[..i] else name
  }

  /** A name without any `_` has no backup marker and is its own logical name. */
  lemma LogicalNameWithoutMarker(name: string)
    requires '_' !in name
    ensures LogicalName(name) == name
  {
    var m := BackupMarker;
    forall j | 0 <= j <= |name|
      ensures !OccursAt(name, m, j)
    {
      if j + |m| <= |name| {
        assert name[j..j + |m|][0] == name[j] != '_';
      }
    }
  }

  /** Appending a backup marker and anything after it to a name never moves
      the first marker past the end of the name: the marker is the only
      `_` in `_backup`, so no occurrence can straddle the join. */
  lemma {:induction false} MarkerAfterName(name: string, rest: string)
    ensures IndexOf(name + BackupMarker + rest, BackupMarker) == |LogicalName(name)|
  {
    var s := name + BackupMarker + rest;
    var m := BackupMarker;
    var i := IndexOf(name, m);
    var k := |LogicalName(name)|;
    forall j | 0 <= j < k
      ensures !OccursAt(s, m, j)
    {
      if j + |m| <= |name| {
        assert s[j..j + |m|] == name[j..j + |m|];
        assert !OccursAt(name, m, j);
      } else if j + |m| <= |s| {
        assert s[j..j + |m|][|name| - j] == '_';
        assert m[|name| - j] != '_';
      }
    }
    if i >= 0 {
      assert s[i..i + |m|] == name[i..i + |m|];
    } else {
      assert s[|name|..|name| + |m|] == m;
    }
    IndexOfIsFirst(s, m, k);
  }

  /** The restore name `name_backup` and every push name `name_backup…`
      share one cache key: the logical name of `name`. */
  lemma {:induction false} BackupNamesShareKey(name: string, rest: string)
    ensures CacheKey(name + BackupMarker + rest) == CachePrefix + LogicalName(name)
    ensures CacheKey(name + BackupMarker + rest) == CacheKey(name + BackupMarker)
  {
    MarkerAfterName(name, rest);
    MarkerAfterName(name, "");
    assert name + BackupMarker + "" == name + BackupMarker;
    var s := name + BackupMarker + rest;
    assert s[..|LogicalName(name)|] == name[..|LogicalName(name)|];
    var s0 := name + BackupMarker;
    assert s0[..|LogicalName(name)|] == name[..|LogicalName(name)|];
  }

  /** The state the sync entry point sees: the working filesystem, the
      persistent cache and the one-shot `init` flag of the page. */
  datatype Store = Store(fs: FileSystem, cache: map<string, Bytes>, init: bool)

  /** The state after a sync call and the status it returned. */
  datatype SyncResult = SyncResult(store: Store, status: int)

  /** `syncDatabaseWithBrowserCacheAsync(file)`. The first call of a page
      restores: it copies the cached bytes of the file's key to `/file` and
      returns 0, or returns -1 when the key is not cached. Every later call
      pushes: it stores the bytes of `/file` under the key, removes the file
      and returns 1, or returns -1 when there is no such file. */
  function Sync(st: Store, file: string): (r: SyncResult)
    ensures r.store.init
    ensures r.status == Restored <==> !st.init && CacheKey(file) in st.cache
    ensures r.status == Pushed <==> st.init && PathOf(file) in st.fs
    ensures r.status == NotFound <==> (if st.init then PathOf(file) !in st.fs else CacheKey(file) !in st.cache)
    ensures r.status == Restored ==>
              r.store.cache == st.cache &&
              r.store.fs.Keys == st.fs.Keys + {PathOf(file)} &&
              r.store.fs[PathOf(file)] == st.cache[CacheKey(file)]
    ensures r.status == Pushed ==>
              r.store.fs.Keys == st.fs.Keys - {PathOf(file)} &&
              r.store.cache.Keys == st.cache.Keys + {CacheKey(file)} &&
              r.store.cache[CacheKey(file)] == st.fs[PathOf(file)]
    ensures r.status == NotFound ==> r.store.fs == st.fs && r.store.cache == st.cache
    ensures forall p :: p in st.fs && p != PathOf(file) ==> p in r.store.fs && r.store.fs[p] == st.fs[p]
    ensures forall k :: k in st.cache && k != CacheKey(file) ==> k in r.store.cache && r.store.cache[k] == st.cache[k]
  {
    var path := PathOf(file);
    var key := CacheKey(file);
    if !st.init then
      if key in st.cache then
        SyncResult(Store(st.fs[path := st.cache[key]], st.cache, true), Restored)
      else
        SyncResult(st.(init := true), NotFound)
    else if path in st.fs then
      SyncResult(Store(st.fs - {path}, st.cache[key := st.fs[path]], true), Pushed)
    else
      SyncResult(st, NotFound)
  }

  /** After the first call every call is a push or a miss, never a restore. */
  lemma OnlyFirstCallRestores(st: Store, first: string, later: string)
    ensures Sync(Sync(st, first).store, later).status in {Pushed, NotFound}
  {
  }

  /** Pushing `name_backup…` and then restoring `name_backup` on a fresh page
      that kept the cache gives back exactly the pushed bytes. */
  lemma PushThenRestore(st: Store, name: string, suffix: string, reloaded: FileSystem)
    requires st.init
    requires PathOf(name + BackupMarker + suffix) in st.fs
    ensures var pushed := Sync(st, name + BackupMarker + suffix);
            var restored := Sync(Store(reloaded, pushed.store.cache, false), name + BackupMarker);
            pushed.status == Pushed &&
            restored.status == Restored &&
            restored.store.fs[PathOf(name + BackupMarker)] == st.fs[PathOf(name + BackupMarker + suffix)]
  {
    BackupNamesShareKey(name, suffix);
  }

  /** Why a download link could not be produced: the page has not yet opened
      its cache handle, so reading it throws. */
  datatype LinkError = CacheNotOpened

  /** `generateDownloadLinkAsync(filename)`: the cached bytes of the file's
      key (the link is a handle on them), `None` for the empty string when
      the key is not cached. The store is only read. */
  function DownloadLink(st: Store, filename: string): (r: Result<Option<Bytes>, LinkError>)
    ensures r.Err? <==> !st.init
    ensures r.Ok? ==> (r.value.None? <==> CacheKey(filename) !in st.cache)
    ensures r.Ok? && r.value.Some? ==> r.value.value == st.cache[CacheKey(filename)]
  {
    if !st.init then Err(CacheNotOpened)
    else
      var key := CacheKey(filename);
      if key in st.cache then Ok(Some(st.cache[key])) else Ok(None)
  }

  /** After a push of `name_backup…`, the download link of any name with the
      same logical name hands out the pushed bytes. */
  lemma LinkAfterPush(st: Store, name: string, suffix: string)
    requires st.init
    requires PathOf(name + BackupMarker + suffix) in st.fs
    ensures DownloadLink(Sync(st, name + BackupMarker + suffix).store, name + BackupMarker)
            == Ok(Some(st.fs[PathOf(name + BackupMarker + suffix)]))
  {
    BackupNamesShareKey(name, suffix);
  }
}

=== FILE: common.dfy ===
/** Shared vocabulary: optional values, results with an error, bytes and the
    in-memory working filesystem of the browser sandbox. */
module Common {

  /** A value that may be absent: a C# `null`, a JavaScript empty string or
      a missing dictionary entry. */
  datatype Option<+T> = None | Some(value: T)

  /** The outcome of an operation that can throw. */
  datatype Result<+T, +E> = Ok(value: T) | Err(error: E)

  type Byte = x: int | 0 <= x < 256

  /** The content of one file or one cached blob. */
  type Bytes = seq<Byte>

  /** The ephemeral working filesystem: absolute path to file content. */
  type FileSystem = map<string, Bytes>

  /** The two maps hold the same entries at every key outside `except`. */
  ghost predicate AgreeOutside(a: map<string, Bytes>, b: map<string, Bytes>, except: set<string>)
  {
    forall k :: k !in except ==> (k in a <==> k in b) && (k in a ==> a[k] == b[k])
  }
}

=== FILE: database_swap.dfy ===
/** The swap primitive: an engine-level online backup of one database file
    onto another, seen as a whole-value copy in the working filesystem. */
module DatabaseSwap {
  import opened Common
  import opened BrowserCacheStorage

  /** The content of a database file the engine has just created. */
  const EmptyDatabase: Bytes := []

  /** `DoSwap(source, dest)`: both names are opened as databases (relative
      names live at the filesystem root) and the source is backed up onto the
      destination. Opening creates a missing file, so a missing source is
      first created empty and the destination becomes empty too. */
  function Swap(fs: FileSystem, source: string, dest: string): (r: FileSystem)
    ensures r.Keys == fs.Keys + {PathOf(source), PathOf(dest)}
    ensures r[PathOf(dest)] == (if PathOf(source) in fs then fs[PathOf(source)] else EmptyDatabase)
    ensures r[PathOf(source)] == r[PathOf(dest)]
    ensures forall p :: p in fs && p != PathOf(dest) ==> r[p] == fs[p]
  {
    var src := PathOf(source);
    var content := if src in fs then fs[src] else EmptyDatabase;
    fs[src := content][PathOf(dest) := content]
  }

  /** Swapping is a copy: repeating a swap changes nothing more. */
  lemma SwapIdempotent(fs: FileSystem, source: string, dest: string)
    ensures Swap(Swap(fs, source, dest), source, dest) == Swap(fs, source, dest)
  {
  }
}

=== FILE: db_context_factory.dfy ===
/** The context factory that keeps the live database file in step with the
    browser cache: a restore started at construction, awaited by the first
    caller, schema creation on the first open, and a backup pushed after
    every write that saved rows. Each asynchronous step is taken as one
    atomic transition. */
module DbContextFactory {
  import opened Common
  import opened Strings
  import opened FilenameRegistry
  import opened BrowserCacheStorage
  import opened DatabaseSwap

  /** `_lastStatus` before any sync has completed. */
  const NotYetRun := -2

  /** The status codes `_lastStatus` can hold. */
  predicate IsStatus(s: int)
  {
    s == NotYetRun || s == NotFound || s == Restored || s == Pushed
  }

  /** What the factory's operations can throw. */
  datatype FactoryError =
    | StartupFailed(cause: ParseError)   // the startup task faulted; awaiting it rethrows
    | FilenameNotRegistered              // `FileNames[typeof(TContext)]` found no entry

  /** The settled startup task: the restore's status, or the exception it captured. */
  datatype StartupOutcome = Completed(status: int) | Faulted(cause: ParseError)

  /** Process-wide state: the storage service's store, the static filename
      registry, and the names passed to `SyncDatabaseAsync`, in call order. */
  datatype World = World(store: Store, registry: Registry, syncCalls: seq<string>)

  /** One factory: its context type, `_startupTask` (`None` once consumed),
      `_lastStatus` and `_init`. */
  datatype Factory = Factory(contextType: TypeId, startupTask: Option<StartupOutcome>, lastStatus: int, init: bool)

  datatype Instance = Instance(world: World, factory: Factory)

  /** A context handed out by `CreateDbContextAsync`, with whether this open
      ran the schema creation. */
  datatype Opened = Opened(factory: Factory, createdSchema: bool)

  /** `BackupFile`: the name restored from the cache. */
  function BackupFile(filename: string): (r: string)
    ensures |r| == |filename| + |BackupMarker|
  {
    filename + BackupMarker
  }

  /** The restored name always carries the marker, so it is cached under
      the logical name of the file and never under the bare prefix. */
  lemma BackupFileKey(filename: string)
    ensures CacheKey(BackupFile(filename)) == CachePrefix + LogicalName(filename)
    ensures Contains(BackupFile(filename), BackupMarker)
  {
    BackupNamesShareKey(filename, "");
    MarkerAfterName(filename, "");
    assert filename + BackupMarker + "" == BackupFile(filename);
  }

  /** The uniquely-suffixed name each post-write backup is taken under; it
      is cached under the same key as the restored file. */
  function BackupName(filename: string, suffix: string): (r: string)
    ensures BackupFile(filename) <= r && r[|BackupFile(filename)|..] == "-" + suffix
    ensures CacheKey(r) == CacheKey(BackupFile(filename))
  {
    BackupNamesShareKey(filename, "-" + suffix);
    assert filename + BackupMarker + ("-" + suffix) == BackupFile(filename) + "-" + suffix;
    BackupFile(filename) + "-" + suffix
  }

  /** Backup names are as unique as their suffixes, and never the live or
      the restored file's name. */
  lemma BackupNamesDistinct(filename: string, s1: string, s2: string)
    ensures s1 != s2 ==> BackupName(filename, s1) != BackupName(filename, s2)
    ensures BackupName(filename, s1) != filename && BackupName(filename, s1) != BackupFile(filename)
  {
    var prefix := BackupFile(filename) + "-";
    assert BackupName(filename, s1) == prefix + s1 && BackupName(filename, s2) == prefix + s2;
    if BackupName(filename, s1) == BackupName(filename, s2) {
      assert s1 == (prefix + s1)[|prefix|..] == (prefix + s2)[|prefix|..] == s2;
    }
  }

  /** `SyncDatabaseAsync(name)`: one call into the storage service. */
  function SyncDatabase(w: World, name: string): (r: (World, int))
    ensures r.0.registry == w.registry
    ensures r.0.syncCalls == w.syncCalls + [name]
    ensures r.0.store.init && r.1 in {NotFound, Restored, Pushed}
    ensures r.1 == Restored <==> !w.store.init && CacheKey(name) in w.store.cache
    ensures r.1 == Pushed <==> w.store.init && PathOf(name) in w.store.fs
  {
    var result := Sync(w.store, name);
    (World(result.store, w.registry, w.syncCalls + [name]), result.status)
  }

  /** `Filename`: the registered filename of a context type. */
  function Filename(reg: Registry, t: TypeId): (r: Result<string, FactoryError>)
    ensures r.Ok? <==> t in reg
    ensures r.Ok? ==> r.value == reg[t]
  {
    if t in reg then Ok(reg[t]) else Err(FilenameNotRegistered)
  }

  /** `RestoreAsync`: resolve the filename, sync `<filename>_backup`, and when
      that restored a backup (status 0) swap it onto the live file. A
      resolution error faults the task before any sync call. */
  function RestoreTask(w: World, t: TypeId, connectionString: Option<string>): (r: (World, StartupOutcome))
    ensures r.1.Faulted? <==> t !in w.registry && ResolveFilename(connectionString).Err?
    ensures r.1.Faulted? ==> r.0 == w
    ensures r.1.Completed? ==> t in r.0.registry && r.0.store.init
    ensures r.1.Completed? ==> r.0.syncCalls == w.syncCalls + [BackupFile(r.0.registry[t])]
    ensures r.1.Completed? && r.1.status != Pushed ==> r.0.store.cache == w.store.cache
    ensures r.1.Completed? ==>
              (r.1.status == Restored <==> !w.store.init && CacheKey(BackupFile(r.0.registry[t])) in w.store.cache)
    ensures r.1.Completed? && r.1.status == Restored ==>
              var key := CacheKey(BackupFile(r.0.registry[t]));
              key in w.store.cache &&
              PathOf(r.0.registry[t]) in r.0.store.fs && r.0.store.fs[PathOf(r.0.registry[t])] == w.store.cache[key] &&
              PathOf(BackupFile(r.0.registry[t])) in r.0.store.fs &&
              r.0.store.fs[PathOf(BackupFile(r.0.registry[t]))] == w.store.cache[key]
    ensures r.1.Completed? && r.1.status != Restored ==>
              var live := PathOf(r.0.registry[t]);
              (live in r.0.store.fs <==> live in w.store.fs) &&
              (live in w.store.fs ==> r.0.store.fs[live] == w.store.fs[live])
    ensures r.1.Completed? ==> r.1.status in {NotFound, Restored, Pushed}
    ensures r.1.Completed? ==> r.0.registry == GetFilename(w.registry, t, connectionString).registry
    ensures r.1.Completed? ==>
              r.0.registry[t] == (if t in w.registry then w.registry[t] else ResolveFilename(connectionString).value)
    ensures r.1.Completed? ==>
              var f := r.0.registry[t];
              AgreeOutside(r.0.store.fs, w.store.fs, {PathOf(f), PathOf(BackupFile(f))}) &&
              AgreeOutside(r.0.store.cache, w.store.cache, {CacheKey(BackupFile(f))})
    ensures r.1.Completed? && r.1.status == NotFound ==> r.0.store.fs == w.store.fs
    ensures r.1.Completed? ==>
              var backup := BackupFile(r.0.registry[t]);
              (r.1.status == NotFound <==>
                 if w.store.init then PathOf(backup) !in w.store.fs else CacheKey(backup) !in w.store.cache) &&
              (r.1.status == Pushed <==> w.store.init && PathOf(backup) in w.store.fs)
    ensures r.1.Completed? && r.1.status == Pushed ==>
              var backup := BackupFile(r.0.registry[t]);
              && PathOf(backup) in w.store.fs
              && CacheKey(backup) in r.0.store.cache
              && r.0.store.cache[CacheKey(backup)] == w.store.fs[PathOf(backup)]
              && PathOf(backup) !in r.0.store.fs
  {
    var resolution := GetFilename(w.registry, t, connectionString);
    match resolution.filename
    case Err(e) => (w, Faulted(e))
    case Ok(f) =>
      var backup := BackupFile(f);
      var synced := Sync(w.store, backup);
      var (w1, status) := SyncDatabase(w.(registry := resolution.registry), backup);
      assert w1.store == synced.store && status == synced.status;
      if status == Restored then
        var live := resolution.registry[t];
        (w1.(store := w1.store.(fs := Swap(w1.store.fs, backup, live))), Completed(status))
      else
        (w1, Completed(status))
  }

  /** The constructor: start the restore and keep it as the startup task;
      the restore itself records its status in `_lastStatus`. */
  function New(w: World, t: TypeId, connectionString: Option<string>): (r: Instance)
    ensures r.factory.contextType == t && !r.factory.init
    ensures r.factory.startupTask == Some(RestoreTask(w, t, connectionString).1)
    ensures r.world == RestoreTask(w, t, connectionString).0
    ensures r.factory.lastStatus == (if r.factory.startupTask.value.Completed? then r.factory.startupTask.value.status else NotYetRun)
  {
    var (w1, outcome) := RestoreTask(w, t, connectionString);
    Instance(w1, Factory(t, Some(outcome), if outcome.Completed? then outcome.status else NotYetRun, false))
  }

  /** `CheckForStartupTaskAsync`: await a pending startup task once, copy its
      status into `_lastStatus` and drop it; a faulted task rethrows and stays. */
  function CheckForStartupTask(f: Factory): (r: Result<Factory, FactoryError>)
    ensures r.Err? <==> f.startupTask.Some? && f.startupTask.value.Faulted?
    ensures r.Err? ==> r.error == StartupFailed(f.startupTask.value.cause)
    ensures r.Ok? ==> r.value.startupTask.None?
    ensures r.Ok? ==> r.value.contextType == f.contextType && r.value.init == f.init
    ensures f.startupTask.None? ==> r == Ok(f)
    ensures r.Ok? && f.startupTask.Some? ==> r.value.lastStatus == f.startupTask.value.status
  {
    match f.startupTask
    case None => Ok(f)
    case Some(Faulted(e)) => Err(StartupFailed(e))
    case Some(Completed(s)) => Ok(f.(startupTask := None, lastStatus := s))
  }

  /** The startup task is consumed at most once: checking again changes nothing. */
  lemma CheckForStartupTaskOnce(f: Factory)
    requires CheckForStartupTask(f).Ok?
    ensures CheckForStartupTask(CheckForStartupTask(f).value) == CheckForStartupTask(f)
  {
  }

  /** `CreateDbContextAsync`: wait for the startup task, then run the schema
      creation only on the first open. The world is not touched. */
  function CreateDbContext(f: Factory): (r: Result<Opened, FactoryError>)
    ensures r.Err? <==> CheckForStartupTask(f).Err?
    ensures r.Err? ==> r.error == CheckForStartupTask(f).error
    ensures r.Ok? ==> r.value.factory.init
    ensures r.Ok? ==> (r.value.createdSchema <==> !f.init)
    ensures r.Ok? ==> r.value.factory.startupTask.None? && r.value.factory.contextType == f.contextType
    ensures r.Ok? && f.startupTask.Some? ==> r.value.factory.lastStatus == f.startupTask.value.status
    ensures r.Ok? && f.startupTask.None? ==> r.value.factory.lastStatus == f.lastStatus
  {
    match CheckForStartupTask(f)
    case Err(e) => Err(e)
    case Ok(g) => Ok(Opened(g.(init := true), !g.init))
  }

  /** Once a context was opened, no later open creates the schema again. */
  lemma SchemaCreatedOnce(f: Factory)
    requires CreateDbContext(f).Ok?
    ensures CreateDbContext(CreateDbContext(f).value.factory) == Ok(Opened(CreateDbContext(f).value.factory, false))
  {
  }

  /** `DbContextSavedChanges`: wait for the startup task; when rows were
      saved, swap the live file onto a fresh backup name, push that name and
      record the status. The connection close is not modelled. */
  function SavedChanges(w: World, f: Factory, entitiesSaved: int, suffix: string): (r: Result<Instance, FactoryError>)
    ensures CheckForStartupTask(f).Err? ==> r == Err(CheckForStartupTask(f).error)
    ensures CheckForStartupTask(f).Ok? && entitiesSaved > 0 ==>
              (r.Ok? <==> f.contextType in w.registry) && (r.Err? ==> r.error == FilenameNotRegistered)
    ensures r.Ok? ==>
              r.value.factory.startupTask.None? && r.value.factory.init == f.init &&
              r.value.factory.contextType == f.contextType
    ensures r.Ok? ==> r.value.world.registry == w.registry
    ensures entitiesSaved <= 0 ==> r.Ok? ==> r.value.world == w
    ensures entitiesSaved <= 0 && CheckForStartupTask(f).Ok? ==> r == Ok(Instance(w, CheckForStartupTask(f).value))
    ensures entitiesSaved > 0 && r.Ok? ==>
              f.contextType in w.registry &&
              r.value.world.syncCalls == w.syncCalls + [BackupName(w.registry[f.contextType], suffix)]
    ensures entitiesSaved > 0 && r.Ok? && w.store.init ==>
              var live := PathOf(w.registry[f.contextType]);
              var backup := BackupName(w.registry[f.contextType], suffix);
              r.value.factory.lastStatus == Pushed &&
              CacheKey(backup) in r.value.world.store.cache &&
              r.value.world.store.cache[CacheKey(backup)] == (if live in w.store.fs then w.store.fs[live] else EmptyDatabase) &&
              PathOf(backup) !in r.value.world.store.fs
    ensures entitiesSaved > 0 && r.Ok? ==>
              var live := PathOf(w.registry[f.contextType]);
              var backup := BackupName(w.registry[f.contextType], suffix);
              && live in r.value.world.store.fs
              && r.value.world.store.fs[live] == (if live in w.store.fs then w.store.fs[live] else EmptyDatabase)
              && AgreeOutside(r.value.world.store.fs, w.store.fs, {live, PathOf(backup)})
              && AgreeOutside(r.value.world.store.cache, w.store.cache, {CacheKey(backup)})
              && r.value.world.store.init
              && r.value.factory.lastStatus in {NotFound, Restored, Pushed}
              && (!w.store.init ==>
                    r.value.factory.lastStatus == (if CacheKey(backup) in w.store.cache then Restored else NotFound))
  {
    match CheckForStartupTask(f)
    case Err(e) => Err(e)
    case Ok(g) =>
      if entitiesSaved <= 0 then Ok(Instance(w, g))
      else
        match Filename(w.registry, g.contextType)
        case Err(e) => Err(e)
        case Ok(live) =>
          var backup := BackupName(live, suffix);
          var swapped := w.(store := w.store.(fs := Swap(w.store.fs, live, backup)));
          var (w1, status) := SyncDatabase(swapped, backup);
          Ok(Instance(w1, g.(lastStatus := status)))
  }

  /** The invariant of every reachable factory: `_lastStatus` is a status
      code, and unless the startup task faulted the filename is registered and
      the storage service has had its first call. */
  predicate Good(inst: Instance)
  {
    && IsStatus(inst.factory.lastStatus)
    && ((inst.factory.startupTask.None? || inst.factory.startupTask.value.Completed?) ==>
          inst.factory.contextType in inst.world.registry && inst.world.store.init)
    && (inst.factory.startupTask.Some? && inst.factory.startupTask.value.Completed? ==>
          IsStatus(inst.factory.startupTask.value.status))
  }

  /** A freshly constructed factory satisfies the invariant. */
  lemma NewIsGood(w: World, t: TypeId, connectionString: Option<string>)
    ensures Good(New(w, t, connectionString))
  {
  }

  /** Opening a context keeps the invariant; the world is untouched. */
  lemma CreateDbContextKeepsGood(inst: Instance)
    requires Good(inst)
    requires CreateDbContext(inst.factory).Ok?
    ensures Good(Instance(inst.world, CreateDbContext(inst.factory).value.factory))
  {
  }

  /** Once the startup restore has completed, a write that saved rows always
      ends in a push: the filename is registered, the swap creates the backup
      file, and the storage service is past its first call. */
  lemma SavedChangesPushes(inst: Instance, entitiesSaved: int, suffix: string)
    requires Good(inst)
    requires CheckForStartupTask(inst.factory).Ok?
    requires entitiesSaved > 0
    ensures SavedChanges(inst.world, inst.factory, entitiesSaved, suffix).Ok?
    ensures SavedChanges(inst.world, inst.factory, entitiesSaved, suffix).value.factory.lastStatus == Pushed
  {
  }

  /** Every save event keeps the invariant. */
  lemma SavedChangesKeepsGood(inst: Instance, entitiesSaved: int, suffix: string)
    requires Good(inst)
    requires SavedChanges(inst.world, inst.factory, entitiesSaved, suffix).Ok?
    ensures Good(SavedChanges(inst.world, inst.factory, entitiesSaved, suffix).value)
  {
  }
}

=== FILE: filename_registry.dfy ===
/** The process-wide filename registry of the context factory: the database
    filename of a context type is read once from its connection string and
    cached for the rest of the process. */
module FilenameRegistry {
  import opened Common
  import opened Strings

  /** The filename used when the connection string names no file. */
  const FallbackFilename := "filenotfound.db"

  /** A context type, identified by its name. */
  type TypeId = string

  /** The static `FileNames` dictionary. */
  type Registry = map<TypeId, string>

  /** Reading `split[1]` of a segment without '=' throws; `segment` is the
      offending segment. */
  datatype ParseError = MissingValue(segment: string)

  /** A lower-cased key that designates the database file. */
  predicate IsFileKey(key: string)
  {
    Contains(key, "data source") || Contains(key, "datasource") || Contains(key, "filename")
  }

  /** The key of a segment: its text before the first '='. */
  function SegmentKey(seg: string): string
  {
    if '=' in seg then seg[..CharIndex(seg, '=')] else seg
  }

  /** The value of a segment: its text after the first '=', up to the next '='. */
  function SegmentValue(seg: string): string
    requires '=' in seg
  {
    var rest := seg[CharIndex(seg, '=') + 1..];
    if '=' in rest then rest[..CharIndex(rest, '=')] else rest
  }

  /** A segment whose key, lower-cased, names the database file. */
  predicate NamesFile(seg: string)
  {
    '=' in seg && IsFileKey(Lower(SegmentKey(seg)))
  }

  /** The first `n` segments were split without error and none named the file. */
  predicate Passed(segs: seq<string>, n: int)
    requires n <= |segs|
  {
    forall j :: 0 <= j < n ==> '=' in segs[j] && !NamesFile(segs[j])
  }

  /** The split of a segment on '=' agrees with `SegmentKey` and `SegmentValue`. */
  lemma SplitSegment(seg: string)
    ensures Split(seg, '=')[0] == SegmentKey(seg)
    ensures '=' in seg ==> Split(seg, '=')[1] == SegmentValue(seg)
  {
  }

  /** The lazy LINQ pipeline over the `;`-segments from position `k` on:
      each segment is split on '=', its key lower-cased and matched, and the
      first match yields its value; segments after the match are never split. */
  function ScanFrom(segs: seq<string>, k: nat): (r: Result<Option<string>, ParseError>)
    requires k <= |segs|
    requires Passed(segs, k)
    ensures r == Ok(None) <==> Passed(segs, |segs|)
    ensures r.Err? ==> exists i :: k <= i < |segs| && Passed(segs, i) && '=' !in segs[i]
    ensures forall i :: k <= i < |segs| && Passed(segs, i) && '=' !in segs[i] ==>
              r == Err(MissingValue(segs[i]))
    ensures forall i :: k <= i < |segs| && Passed(segs, i) && NamesFile(segs[i]) ==>
              r == Ok(Some(SegmentValue(segs[i])))
    decreases |segs| - k
  {
    if k == |segs| then Ok(None)
    else
      var kv := Split(segs[k], '=');
      SplitSegment(segs[k]);
      if |kv| < 2 then Err(MissingValue(segs[k]))
      else if IsFileKey(Lower(kv[0])) then Ok(Some(kv[1]))
      else ScanFrom(segs, k + 1)
  }

  /** The filename a connection string names, `FallbackFilename` when it is
      null or names none, or the error its parsing throws. */
  function ResolveFilename(connectionString: Option<string>): (r: Result<string, ParseError>)
    ensures connectionString.None? ==> r == Ok(FallbackFilename)
  {
    match connectionString
    case None => Ok(FallbackFilename)
    case Some(cs) =>
      match ScanFrom(Split(cs, ';'), 0)
      case Err(e) => Err(e)
      case Ok(None) => Ok(FallbackFilename)
      case Ok(Some(v)) => Ok(v)
  }

  /** Resolution by segments: the value of the first segment naming the
      file, the fallback when every segment has a value and none names the
      file, an error when a segment without '=' comes first. */
  lemma ResolveFilenameSegments(cs: string, i: nat)
    requires i < |Split(cs, ';')|
    requires Passed(Split(cs, ';'), i)
    ensures NamesFile(Split(cs, ';')[i]) ==>
              ResolveFilename(Some(cs)) == Ok(SegmentValue(Split(cs, ';')[i]))
    ensures '=' !in Split(cs, ';')[i] ==>
              ResolveFilename(Some(cs)) == Err(MissingValue(Split(cs, ';')[i]))
  {
  }

  /** A connection string in which every segment has a value and none names
      the file resolves to the fallback. */
  lemma ResolveFilenameFallback(cs: string)
    requires Passed(Split(cs, ';'), |Split(cs, ';')|)
    ensures ResolveFilename(Some(cs)) == Ok(FallbackFilename)
  {
  }

  /** A segment `key=value` in which neither part holds '=' has that key and value. */
  lemma SegmentParts(key: string, value: string)
    requires '=' !in key && '=' !in value
    ensures SegmentKey(key + ['='] + value) == key
    ensures SegmentValue(key + ['='] + value) == value
  {
    var seg := key + ['='] + value;
    CharIndexAfter(key, '=', value);
    assert seg[|key| + 1..] == value;
  }

  /** A one-segment connection string whose key names the file resolves to its value. */
  lemma ResolveSingleSegment(key: string, value: string)
    requires ';' !in key && ';' !in value
    requires '=' !in key && '=' !in value
    requires IsFileKey(Lower(key))
    ensures ResolveFilename(Some(key + ['='] + value)) == Ok(value)
  {
    var cs := key + ['='] + value;
    assert ';' !in cs;
    SegmentParts(key, value);
    ResolveFilenameSegments(cs, 0);
  }

  /** The connection string the application configures resolves to its data source. */
  lemma ResolveTodoListConnectionString()
    ensures ResolveFilename(Some("Data Source=todolist.sqlite3")) == Ok("todolist.sqlite3")
  {
    var key, value := "Data Source", "todolist.sqlite3";
    assert "Data Source=todolist.sqlite3" == key + ['='] + value;
    assert ';' !in key && '=' !in key by {
      assert forall i :: 0 <= i < |key| ==> key[i] != '=' && key[i] != ';';
    }
    assert ';' !in value && '=' !in value by {
      assert forall i :: 0 <= i < |value| ==> value[i] != '=' && value[i] != ';';
    }
    assert Lower(key) == "data source";
    IndexOfIsFirst("data source", "data source", 0);
    ResolveSingleSegment(key, value);
  }

  /** The result of a registry lookup-or-resolve. */
  datatype Resolution = Resolution(registry: Registry, filename: Result<string, ParseError>)

  /** `GetFilename`: the cached filename of `t` if it has one; otherwise the
      filename resolved from the connection string, which is then cached. */
  function GetFilename(reg: Registry, t: TypeId, connectionString: Option<string>): (r: Resolution)
    ensures t in reg ==> r == Resolution(reg, Ok(reg[t]))
    ensures t !in reg ==> r.filename == ResolveFilename(connectionString)
    ensures forall u :: u in reg ==> u in r.registry && r.registry[u] == reg[u]
    ensures r.filename.Ok? ==> t in r.registry && r.registry[t] == r.filename.value
    ensures r.filename.Ok? ==> r.registry.Keys == reg.Keys + {t}
    ensures r.filename.Err? ==> r.registry == reg
  {
    if t in reg then Resolution(reg, Ok(reg[t]))
    else
      match ResolveFilename(connectionString)
      case Err(e) => Resolution(reg, Err(e))
      case Ok(f) => Resolution(reg[t := f], Ok(f))
  }

  /** Once a type is registered, any later lookup returns the same filename,
      whatever connection string is presented. */
  lemma GetFilenameStable(reg: Registry, t: TypeId, cs1: Option<string>, cs2: Option<string>)
    requires GetFilename(reg, t, cs1).filename.Ok?
    ensures GetFilename(GetFilename(reg, t, cs1).registry, t, cs2)
            == Resolution(GetFilename(reg, t, cs1).registry, GetFilename(reg, t, cs1).filename)
  {
  }

  /** `GetFilenameForType`: the cached filename of a type, or null. */
  function FilenameForType(reg: Registry, t: TypeId): (r: Option<string>)
    ensures r.Some? <==> t in reg
    ensures r.Some? ==> r.value == reg[t]
  {
    if t in reg then Some(reg[t]) else None
  }

  /** `GetFilenameForType` sees what `GetFilename` registers: nothing before
      the first resolution of a type, the resolved name after it. */
  lemma FilenameForTypeAfterGetFilename(reg: Registry, t: TypeId, connectionString: Option<string>)
    ensures t !in reg ==> FilenameForType(reg, t) == None
    ensures var res := GetFilename(reg, t, connectionString);
            res.filename.Ok? ==> FilenameForType(res.registry, t) == Some(res.filename.value)
    ensures var res := GetFilename(reg, t, connectionString);
            res.filename.Err? ==> FilenameForType(res.registry, t) == None
  {
  }
}

=== FILE: lifecycle.dfy ===
/** Properties of whole runs: a write pushed by one page is what the next
    page restores, and the two start-up scenarios of an empty and of a
    seeded browser cache. */
module Lifecycle {
  import opened Common
  import opened Strings
  import opened FilenameRegistry
  import opened BrowserCacheStorage
  import opened DatabaseSwap
  import opened DbContextFactory

  /** The state a page reload leaves: the working filesystem and the
      process-wide registry are gone, the browser cache survives, and the
      storage service is back before its first call. */
  function Reload(w: World): World
  {
    World(Store(map[], w.store.cache, false), map[], [])
  }

  /** A write that saved rows leaves the live file's bytes in the cache under
      the key the restore of that file looks up. */
  lemma PushedUnderRestoreKey(inst: Instance, entitiesSaved: int, suffix: string)
    requires Good(inst)
    requires CheckForStartupTask(inst.factory).Ok?
    requires entitiesSaved > 0
    ensures var name := inst.world.registry[inst.factory.contextType];
            var live := PathOf(name);
            var saved := SavedChanges(inst.world, inst.factory, entitiesSaved, suffix);
            saved.Ok? &&
            CacheKey(BackupFile(name)) in saved.value.world.store.cache &&
            saved.value.world.store.cache[CacheKey(BackupFile(name))]
              == (if live in inst.world.store.fs then inst.world.store.fs[live] else EmptyDatabase)
  {
    SavedChangesPushes(inst, entitiesSaved, suffix);
  }

  /** A page that starts before its storage service's first call restores the
      cached blob of its file onto the live file. */
  lemma RestoreFromCache(w: World, t: TypeId, connectionString: Option<string>, name: string)
    requires !w.store.init && t !in w.registry
    requires ResolveFilename(connectionString) == Ok(name)
    requires CacheKey(BackupFile(name)) in w.store.cache
    ensures var next := New(w, t, connectionString);
            next.factory.startupTask == Some(Completed(Restored)) &&
            next.factory.lastStatus == Restored &&
            PathOf(name) in next.world.store.fs &&
            next.world.store.fs[PathOf(name)] == w.store.cache[CacheKey(BackupFile(name))]
  {
  }

  /** Round trip: after a write that saved rows, a reloaded page whose
      connection string names the same file restores the live file's bytes
      at the moment of the write. */
  lemma WriteThenReloadRestores(inst: Instance, entitiesSaved: int, suffix: string, connectionString: Option<string>)
    requires Good(inst)
    requires CheckForStartupTask(inst.factory).Ok?
    requires entitiesSaved > 0
    requires ResolveFilename(connectionString) == Ok(inst.world.registry[inst.factory.contextType])
    ensures var live := PathOf(inst.world.registry[inst.factory.contextType]);
            var bytes := if live in inst.world.store.fs then inst.world.store.fs[live] else EmptyDatabase;
            var saved := SavedChanges(inst.world, inst.factory, entitiesSaved, suffix);
            var next := New(Reload(saved.value.world), inst.factory.contextType, connectionString);
            saved.Ok? &&
            next.factory.startupTask == Some(Completed(Restored)) &&
            next.factory.lastStatus == Restored &&
            live in next.world.store.fs && next.world.store.fs[live] == bytes
  {
    var name := inst.world.registry[inst.factory.contextType];
    PushedUnderRestoreKey(inst, entitiesSaved, suffix);
    var saved := SavedChanges(inst.world, inst.factory, entitiesSaved, suffix);
    RestoreFromCache(Reload(saved.value.world), inst.factory.contextType, connectionString, name);
  }

  const TodoListConnection := "Data Source=todolist.sqlite3"
  const TodoListFile := "todolist.sqlite3"

  /** `todolist.sqlite3` is cached under its own name. */
  lemma TodoListKey(suffix: string)
    ensures CacheKey(BackupFile(TodoListFile)) == CachePrefix + TodoListFile
    ensures CacheKey(BackupName(TodoListFile, suffix)) == CachePrefix + TodoListFile
  {
    assert '_' !in TodoListFile by {
      assert forall i :: 0 <= i < |TodoListFile| ==> TodoListFile[i] != '_';
    }
    LogicalNameWithoutMarker(TodoListFile);
    assert BackupName(TodoListFile, suffix) == TodoListFile + BackupMarker + ("-" + suffix);
    BackupNamesShareKey(TodoListFile, "-" + suffix);
  }

  /** A run from an empty cache: the restore finds nothing (-1), the first
      open creates the schema, a write that saved rows ends in a push (1),
      and the cache then holds exactly one blob, under the logical filename,
      with the live file's bytes at the moment of the write. */
  lemma EmptyCacheRun(t: TypeId, connectionString: Option<string>, name: string, written: Bytes, entitiesSaved: int, suffix: string)
    requires ResolveFilename(connectionString) == Ok(name)
    requires entitiesSaved > 0
    ensures var started := New(World(Store(map[], map[], false), map[], []), t, connectionString);
            var firstOpen := CreateDbContext(started.factory);
            var live := PathOf(name);
            var afterWrite := started.world.(store := started.world.store.(fs := started.world.store.fs[live := written]));
            var saved := SavedChanges(afterWrite, firstOpen.value.factory, entitiesSaved, suffix);
            && started.factory.startupTask == Some(Completed(NotFound))
            && started.world.store.fs == map[]
            && firstOpen.Ok? && firstOpen.value.createdSchema
            && saved.Ok? && saved.value.factory.lastStatus == Pushed
            && saved.value.world.store.cache == map[CacheKey(BackupFile(name)) := written]
  {
    var w0 := World(Store(map[], map[], false), map[], []);
    EmptyCacheStart(t, connectionString, name);
    var started := New(w0, t, connectionString);
    var firstOpen := CreateDbContext(started.factory);
    var live := PathOf(name);
    var afterWrite := started.world.(store := started.world.store.(fs := started.world.store.fs[live := written]));
    var inst := Instance(afterWrite, firstOpen.value.factory);
    assert Good(inst);
    PushedUnderRestoreKey(inst, entitiesSaved, suffix);
    PushIntoEmptyCache(inst, entitiesSaved, suffix);
  }

  /** The start of a run from an empty cache: the filename is registered, the
      restore misses, and nothing else changes. */
  lemma EmptyCacheStart(t: TypeId, connectionString: Option<string>, name: string)
    requires ResolveFilename(connectionString) == Ok(name)
    ensures var started := New(World(Store(map[], map[], false), map[], []), t, connectionString);
            && started.factory.startupTask == Some(Completed(NotFound))
            && started.factory.lastStatus == NotFound
            && started.world.store == Store(map[], map[], true)
            && started.world.registry == map[t := name]
            && Good(started)
  {
  }

  /** A push into an empty cache leaves exactly one blob there. */
  lemma PushIntoEmptyCache(inst: Instance, entitiesSaved: int, suffix: string)
    requires Good(inst) && inst.world.store.cache == map[]
    requires CheckForStartupTask(inst.factory).Ok?
    requires entitiesSaved > 0
    ensures var saved := SavedChanges(inst.world, inst.factory, entitiesSaved, suffix);
            saved.Ok? &&
            saved.value.world.store.cache.Keys == {CacheKey(BackupFile(inst.world.registry[inst.factory.contextType]))}
  {
    SavedChangesPushes(inst, entitiesSaved, suffix);
  }

  /** Scenario: a cache seeded with a blob for `todolist.sqlite3`; the restore
      finds it (0) and the live file holds the seeded bytes when the first
      context is handed out. */
  lemma SeededCacheScenario(t: TypeId, seeded: Bytes)
    ensures var started := New(World(Store(map[], map[CachePrefix + TodoListFile := seeded], false), map[], []),
                               t, Some(TodoListConnection));
            var firstOpen := CreateDbContext(started.factory);
            && started.factory.startupTask == Some(Completed(Restored))
            && PathOf(TodoListFile) in started.world.store.fs
            && started.world.store.fs[PathOf(TodoListFile)] == seeded
            && firstOpen.Ok? && firstOpen.value.factory.lastStatus == Restored
  {
    ResolveTodoListConnectionString();
    TodoListKey("");
  }
}

=== FILE: strings.dfy ===
/** The string operations the synchronisation code relies on, with the
    semantics of the .NET and JavaScript runtimes where they differ. */
module Strings {

  /** `pat` appears in `s` starting at position `i`. */
  predicate OccursAt(s: string, pat: string, i: int)
  {
    0 <= i && i + |pat| <= |s| && s[i..i + |pat|] == pat
  }

  /** Position of the first occurrence of `pat` in `s` at or after `k`, or -1. */
  function IndexFrom(s: string, pat: string, k: nat): (r: int)
    requires k <= |s|
    ensures r == -1 || k <= r <= |s|
    ensures r >= 0 ==> OccursAt(s, pat, r)
    ensures r >= 0 ==> forall j :: k <= j < r ==> !OccursAt(s, pat, j)
    ensures r == -1 ==> forall j :: k <= j <= |s| ==> !OccursAt(s, pat, j)
    decreases |s| - k
  {
    if OccursAt(s, pat, k) then k
    else if k == |s| then -1
    else IndexFrom(s, pat, k + 1)
  }

  /** Ordinal `indexOf`: the position of the first occurrence of `pat` in
      `s`, or -1 when there is none (the same in JavaScript and .NET). */
  function IndexOf(s: string, pat: string): (r: int)
    ensures -1 <= r <= |s|
    ensures r >= 0 ==> OccursAt(s, pat, r)
    ensures forall j :: 0 <= j < r ==> !OccursAt(s, pat, j)
    ensures r == -1 <==> forall j :: 0 <= j <= |s| ==> !OccursAt(s, pat, j)
  {
    IndexFrom(s, pat, 0)
  }

  /** An occurrence with none before it is the one `IndexOf` finds. */
  lemma IndexOfIsFirst(s: string, pat: string, k: int)
    requires OccursAt(s, pat, k)
    requires forall j :: 0 <= j < k ==> !OccursAt(s, pat, j)
    ensures IndexOf(s, pat) == k
  {
  }

  /** Ordinal `string.Contains`. */
  predicate Contains(s: string, pat: string)
  {
    IndexOf(s, pat) >= 0
  }

  /** Position of the first `c` in `s`. */
  function CharIndex(s: string, c: char): (i: nat)
    requires c in s
    ensures i < |s| && s[i] == c
    ensures c !in s[..i]
  {
    if s[0] == c then 0 else 1 + CharIndex(s[1..], c)
  }

  /** The first `c` in `a + [c] + b` is the one after `a` when `a` holds none. */
  lemma CharIndexAfter(a: string, c: char, b: string)
    requires c !in a
    ensures CharIndex(a + [c] + b, c) == |a|
  {
    var s := a + [c] + b;
    var i := CharIndex(s, c);
    assert s[|a|] == c;
    assert s[..i] == a[..i] || i > |a|;
  }

  /** `string.Split(char)`: the pieces between separators, empty pieces kept. */
  function Split(s: string, sep: char): (parts: seq<string>)
    ensures |parts| >= 1
    ensures |parts| == 1 <==> sep !in s
    ensures forall i :: 0 <= i < |parts| ==> sep !in parts[i]
    decreases |s|
  {
    if sep !in s then [s]
    else
      var i := CharIndex(s, sep);
      [s[..i]] + Split(s[i + 1..], sep)
  }

  /** `string.Join(char, parts)`: the inverse of `Split`. */
  function Join(parts: seq<string>, sep: char): string
    requires |parts| >= 1
  {
    if |parts| == 1 then parts[0] else parts[0] + [sep] + Join(parts[1..], sep)
  }

  /** Joining the pieces back gives the original string. */
  lemma {:induction false} JoinSplit(s: string, sep: char)
    ensures Join(Split(s, sep), sep) == s
    decreases |s|
  {
    if sep in s {
      var i := CharIndex(s, sep);
      JoinSplit(s[i + 1..], sep);
      assert s == s[..i] + [sep] + s[i + 1..];
    }
  }

  /** Splitting the first separator off a string. */
  lemma SplitAtFirst(a: string, sep: char, b: string)
    requires sep !in a
    ensures Split(a + [sep] + b, sep) == [a] + Split(b, sep)
  {
    var s := a + [sep] + b;
    assert s[|a|] == sep;
    var i := CharIndex(s, sep);
    assert s[..i] == a;
    assert s[i + 1..] == b;
  }

  /** Splitting joined pieces that hold no separator gives the pieces back. */
  lemma {:induction false} SplitJoin(parts: seq<string>, sep: char)
    requires |parts| >= 1
    requires forall i :: 0 <= i < |parts| ==> sep !in parts[i]
    ensures Split(Join(parts, sep), sep) == parts
  {
    if |parts| > 1 {
      var rest := parts[1..];
      assert Join(parts, sep) == parts[0] + [sep] + Join(rest, sep);
      assert sep !in parts[0];
      assert forall i :: 0 <= i < |rest| ==> sep !in rest[i] by {
        forall i | 0 <= i < |rest| ensures sep !in rest[i] {
          assert rest[i] == parts[i + 1];
        }
      }
      SplitAtFirst(parts[0], sep, Join(rest, sep));
      SplitJoin(rest, sep);
      assert parts == [parts[0]] + rest;
    }
  }

  /** Case mapping of one character; only the ASCII letters are mapped. */
  function LowerChar(c: char): char
  {
    if 'A' <= c <= 'Z' then (c as int + 32) as char else c
  }

  /** `ToLowerInvariant`, restricted to the ASCII letters. */
  function Lower(s: string): (r: string)
    ensures |r| == |s|
    ensures forall i :: 0 <= i < |s| ==> r[i] == LowerChar(s[i])
  {
    seq(|s|, i requires 0 <= i < |s| => LowerChar(s[i]))
  }
}
